=== FILE: README.md ===
# Character controller model

A Dafny model of the player character `ATCharacter` of an Unreal Engine
project. The character has four behavioural states (`Normal`, `Crouch`,
`Run`, `Dead`). It also has a per-frame crouch slide, called momentum, which
converts lost height into speed and decays over time. Fall bookkeeping runs
while crouched in the air, and damage can kill.

The character is an immutable record (`CharacterModel.Character`). Its
fields are grouped by concern:

- the state and the previous state, and the health;
- `Movement`: the movement component's `MaxWalkSpeed`, the jump impulse and
  whether jumping is allowed;
- `Slide`: `bMomentum`, `PrevAngle` and `PrevHeight`;
- `Fall`: `JumpStartHeight`, `JumpEndHeight` and the jump-damage timer;
- `Status`: the heal, attack and teleport flags, and the heal timer.

Each timer handle is reduced to an "armed" flag. Several members the
controller calls have empty bodies. Each call to one of them is appended to
a `calls` log: `CharacterChangeSpeed(v)` becomes `ChangeSpeed(v)`, and
`CapsuleChangeNormal` becomes `CapsuleChangeNormal`. So a state change
*requests* a speed but never writes `MaxWalkSpeed`. Only the per-frame
update writes `MaxWalkSpeed`.

Modules:

- `Tuning`: the constants of the class declaration and the literals of
  TCharacter.cpp.
- `CharacterModel`: the record, the spawned defaults, the invariant
  `Valid`, and the three inline flag setters.
- `StateControl`: `SetCharacterState`. The inline wrappers
  `ChangeStateNormal`/`Crouch`/`Run`/`Dead` (TCharacter.h:59-62) are defined
  as exactly the request for their own state.
- `Damage`: `CharacterTakeDamage`.
- `Movement`: `Tick`, made of the slide step, the turn check and the fall
  step.
- `Lifecycle`: `BeginPlay`, plus arbitrary sequences of operations.
- `Scenarios`: concrete situations, including the effects of the sentinel
  values the per-frame update relies on.

The model follows the code as written; points that are easy to misread:

- Entering `Dead` does not zero health, despite the `// set health to 0`
  comment in that branch; only the damage pipeline sets health to 0.
- Standing up from `Crouch` into `Run` has no capsule-fit guard. The
  capsule restore it calls is an empty member.
- Fall bookkeeping runs only inside the `Crouch` branch of the frame
  update, not whenever the character is airborne.
- A turn that ends the slide returns before the fall bookkeeping.
- Entering `Crouch` from any state other than `Run` leaves the slide flag
  as it was. The invariant `Valid` shows that the flag is already false
  there.
- The stop-run timer is cleared before the dead / same-state guard, so a
  refused request clears it too.
- The heal timer is cleared by damage only while the healing flag is set.

## Model

| member | source | states |
|---|---|---|
| `Tuning.SpeedTiers` | Source/tester/TCharacter.h:67-139 | crouch < walk < run < max speed; the Run-to-Crouch kick (crouch + run) starts under the ceiling; air decay 5 < ground decay 15; max health 100 |
| `CharacterModel.SetCanAttackTrue` | Source/tester/TCharacter.h:146 | the attack flag is set and no other field changes |
| `CharacterModel.SetHealingFalse` | Source/tester/TCharacter.h:171 | the healing flag is cleared and no other field changes |
| `CharacterModel.SetCanTeleportTrue` | Source/tester/TCharacter.h:184 | the teleport flag is set and no other field changes |
| `StateControl.SetState` | Source/tester/TCharacter.cpp:129-205 | the stop-run timer always ends cleared; a dead character, or a request for the current state, changes nothing else; an effective request stores the old state as previous and enters the target. Entering Crouch clears both trackers; from Run it starts a slide and requests crouch + run speed, otherwise it requests crouch speed. Normal, Run and Dead end the slide: Normal requests walk speed with jump 350; Run requests run speed with jump 400 and restores the capsule only when coming from Crouch; Dead requests 0 and forbids jumping. Health, MaxWalkSpeed, fall and status fields never change |
| `StateControl.LastRequestIsBaseline` | Source/tester/TCharacter.cpp:137-203 | an effective transition keeps the earlier calls and appends one call, or two when standing up from Crouch into Run; the last is the speed request for the target's baseline (crouch + run only for Run to Crouch) |
| `StateControl.SetStateIdempotent` | Source/tester/TCharacter.cpp:131-133 | requesting a state twice gives the same character as requesting it once |
| `StateControl.OnlyDeadIsAbsorbing` | Source/tester/TCharacter.cpp:133-192 | from Dead every request keeps Dead; from any other state some request leaves it |
| `StateControl.SlideStartsOnlyFromRun` | Source/tester/TCharacter.cpp:154-169 | with no slide running, a request starts one if and only if the character is running and asks for Crouch |
| `StateControl.SetStateKeepsValid` | Source/tester/TCharacter.cpp:137-203 | state requests keep "slide implies Crouch", the speed ceiling and non-negative health |
| `Damage.CancelHeal` | Source/tester/TCharacter.cpp:210-216 | afterwards nobody is healing; if a heal was running its timer is cleared; otherwise nothing changes; only the two heal fields can change |
| `Damage.TakeDamage` | Source/tester/TCharacter.cpp:208-230 | always returns true and leaves no heal running; health never goes negative. If health − damage ≤ 0, health becomes exactly 0 and the state Dead, with the previous state recorded unless already dead. A lethal hit also leaves the fall record and MaxWalkSpeed alone; on a living character it logs the request for speed 0, forbids jumping, ends the slide, clears the stop-run timer and leaves the jump impulse and the heading and height trackers alone, and on a dead one it only clears the stop-run timer. Otherwise only health (reduced by the damage) and the heal fields change |
| `Damage.DamageAccumulates` | Source/tester/TCharacter.cpp:218-225 | two hits leave the same character as one hit of their sum, provided the second is not negative |
| `Damage.DamageKeepsHealthInRange` | Source/tester/TCharacter.cpp:218-225 | from non-negative health, non-negative damage keeps health within [0, its previous value], so at most MaxHealth if it was |
| `Damage.DeadStaysAtZero` | Source/tester/TCharacter.cpp:218-223 | a dead character with 0 health stays dead at 0 under non-negative damage |
| `Damage.TakeDamageKeepsValid` | Source/tester/TCharacter.cpp:208-230 | damage keeps the invariant |
| `Movement.SeedAngle` | Source/tester/TCharacter.cpp:65 | a recorded heading of 0 is replaced by the current yaw; any other recorded heading is kept |
| `Movement.TurnCheckComparesMagnitudes` | Source/tester/TCharacter.cpp:65-67 | with a heading on record, the slide ends exactly when the magnitudes of the recorded heading and the yaw are more than 44 degrees apart; flipping both signs never changes the outcome |
| `Movement.UnrecordedHeadingNeverTurns` | Source/tester/TCharacter.cpp:65-67 | a recorded heading of 0 is reseeded from the yaw, so the turn check never fires on it |
| `Movement.SlideAccelerate` | Source/tester/TCharacter.cpp:75-91 | on the ground a height change adds (previous height − height) × 2.7, and a result over MaxSpeed becomes exactly MaxSpeed; no height change leaves the speed; in the air the speed drops by 5; descending never slows, climbing never speeds up; the ceiling is kept |
| `Movement.SlideStep` | Source/tester/TCharacter.cpp:75-104 | the slide survives if and only if the accelerated speed minus 5 stays above crouch speed. If it survives, one decay step is taken: 15 on the ground, 5 in the air. If it ends, the speed snaps to crouch speed. The yaw and height are recorded. The ceiling is kept; a surviving slide is above crouch speed − 10, and above crouch speed in the air |
| `Movement.FallStep` | Source/tester/TCharacter.cpp:113-124 | on the ground nothing changes; in the air the start height is set only if it is 0, the end height becomes the current height and the jump-damage timer is armed |
| `Movement.Tick` | Source/tester/TCharacter.cpp:54-126 | outside Crouch nothing changes; only speed, slide and fall fields ever change; a frame never starts a slide; the speed ceiling is kept. Crouched without a slide: crouch speed and cleared trackers. A turn over 44 degrees ends the slide at crouch speed and skips the fall bookkeeping. Otherwise the slide's survival and speed are exactly those of the slide step, then the fall step runs. An airborne frame that keeps the slide costs exactly 10 |
| `Movement.StartHeightSticks` | Source/tester/TCharacter.cpp:113-124 | once a start height is recorded (non-zero), no sequence of frames changes it, since nothing in the modelled code resets it |
| `Movement.TickKeepsValid` | Source/tester/TCharacter.cpp:59-111 | a frame keeps the invariant |
| `Movement.TicksKeepStateAndNeverStartSlide` | Source/tester/TCharacter.cpp:59-125 | no sequence of frames changes the state or starts a slide |
| `Movement.AirborneSlideDecays` | Source/tester/TCharacter.cpp:91-101 | over n airborne frames a slide still running has lost exactly 10·n and is above crouch speed |
| `Movement.AirborneSlideEnds` | Source/tester/TCharacter.cpp:91-101 | from under the ceiling, 407 airborne frames always end the slide, at crouch speed |
| `Movement.TicksEndedSlideAtCrouchSpeed` | Source/tester/TCharacter.cpp:67-111 | after at least one crouched frame, a character with no slide is at crouch speed |
| `CharacterModel.Spawned` | Source/tester/TCharacter.h:50-184 | the declared defaults: Crouch, health 0, no slide, not healing, previous state Normal, slide and fall trackers at their zero "not recorded" values, heal and stop-run timers unarmed, MaxWalkSpeed the engine default, attack and teleport ready, jump 350 (the constructor, TCharacter.cpp:29) and jumping allowed (TCharacter.cpp:21), no calls; it satisfies the invariant exactly when the engine's default walk speed is under the ceiling |
| `Lifecycle.BeginPlay` | Source/tester/TCharacter.cpp:42-51 | health becomes the maximum; a character that is neither dead nor in Normal ends up in Normal with the old state as previous, one walk-speed request logged and jump 350; a dead or already walking character only has its health filled and the stop-run timer cleared; fall, status and MaxWalkSpeed never change; the invariant is kept |
| `Lifecycle.BeginPlayFromSpawn` | Source/tester/TCharacter.h:50-184 | from the declared defaults (Crouch, flags false, attack and teleport ready), play starts in Normal with previous Crouch, health 100, one walk-speed request, jump 350, no slide, and the invariant holding |
| `Lifecycle.StepKeepsValid` | Source/tester/TCharacter.cpp:54-230 | every operation keeps the invariant |
| `Lifecycle.SlideStartsOnlyOnRunToCrouch` | Source/tester/TCharacter.cpp:154-169 | of all operations, only a Crouch request made while running starts a slide |
| `Lifecycle.PlayKeepsValid` | Source/tester/TCharacter.cpp:54-230 | any sequence of operations keeps the invariant |
| `Lifecycle.DeadStaysDead` | Source/tester/TCharacter.cpp:133 | no sequence of operations leaves Dead |
| `Lifecycle.ReachableIsValid` | Source/tester/TCharacter.cpp:42-51 | every character reachable from a spawn through BeginPlay and any operations satisfies the invariant |
| `Scenarios.TwoHitsKill` | Source/tester/TCharacter.cpp:218-225 | from 100 health, a hit of 30 leaves 70 and the state; a further hit of 70 kills with health 0 |
| `Scenarios.DescentSpeedsUp` | Source/tester/TCharacter.cpp:80-101 | a ground slide dropping from height 100 to 90 gains 27 and then decays by 15 |
| `Scenarios.FirstSlideFrameMeasuresFromZero` | Source/tester/TCharacter.cpp:66 | the recorded height is never seeded, so the first slide frame on flat ground at height 100 costs 270 on top of the decay |
| `Scenarios.ZeroHeadingHidesTurn` | Source/tester/TCharacter.cpp:65-67 | a heading of exactly 0 reads as unset, so a 90 degree turn from it goes unnoticed, while the same turn from heading 1 is caught |
| `Scenarios.MirroredTurnGoesUnnoticed` | Source/tester/TCharacter.cpp:67 | comparing absolute headings misses a swing from +30 to −30 degrees |
| `Scenarios.SlideCanDipBelowCrouchSpeed` | Source/tester/TCharacter.cpp:96-101 | the end test looks one air step (5) ahead while the ground step is 15, so a running slide can fall below crouch speed for a frame |

## Left out

- The members with empty bodies have nothing to model and are left out: crouch/uncrouch, the can-stand
  checks and their delay, the capsule check (constant false), the capsule
  restore, stop-run, jump, jump damage, the attacks and recoil, heal and
  finish-heal, the speed setter, teleport, the collision check and `Test`.
  Calls into the speed setter and the capsule restore are only logged.
- The constructor, camera, input binding and `MoveForward`/`MoveRight`
  configure the engine or dispatch input; they are not modelled.
- Engine queries: the velocity yaw, the integer actor height and the
  ground-contact flag are inputs of each frame (`FrameInput`). The rotator
  math is not modelled.
- Movement.Tick: heights are unbounded integers, so the `int16` cast of
  the actor height and its wrap-around are not modelled.
- Timers keep only an armed/cleared flag: no delays, no callbacks firing.
  The attack and teleport timer handles are never armed by the modelled
  code and are omitted.
- Logging and the debug trace tag are not modelled.
- Speeds, angles and health are `real`, so float rounding is not modelled.
  `SlideAccelerate` keeps the factor 2.7 exact.
- `bFalling`, `bStuck` and `StuckLoc` are declared but never read or
  written by the modelled code, so they are not part of the record.
- The header declares `CharacterJum` and `CharcterJumpDamage`, which do
  not match the definitions. That is a build problem, not behaviour.
- The header does not declare `CharacterTakeDamage`, `GetCharacterState`,
  `GetPrevCharacterState` or `GetCharacterCurrentHealth`, which
  TCharacter.cpp uses. The model reads the three getters as the fields
  they name (state, previous state, health).

=== FILE: character.dfy ===
/** The character record: every field of the character class that the state
    controller, the damage pipeline and the per-frame update read or write. */
module CharacterModel {
  import opened Tuning

  /** The four behavioural states, in declaration order. */
  datatype CharacterState = Normal | Crouch | Run | Dead

  /** A call into a member whose body is empty. Such a call changes nothing,
      so the model only records that it was made, and with which argument. */
  datatype StubCall =
    | ChangeSpeed(value: real)     // CharacterChangeSpeed
    | CapsuleChangeNormal          // restore the standing capsule

  /** Engine-provided inputs of one frame: the yaw of the velocity vector,
      the actor's height already cast to an integer, and whether the
      movement component reports ground contact. */
  datatype FrameInput = FrameInput(yaw: real, z: int, grounded: bool)

  /** What the character asks of the movement component. */
  datatype Movement = Movement(
    maxWalkSpeed: real,
    jumpZVelocity: real,
    jumpAllowed: bool)

  /** Slide bookkeeping. A previous angle of 0 doubles as "not recorded". */
  datatype Slide = Slide(momentum: bool, prevAngle: real, prevHeight: int)

  /** Fall bookkeeping. A start height of 0 doubles as "not recorded"; the
      jump-damage timer is reduced to whether it is armed. */
  datatype Fall = Fall(startHeight: int, endHeight: int, damageArmed: bool)

  /** Flags gated by the heal, attack and teleport actions. */
  datatype Status = Status(
    healing: bool,
    healArmed: bool,
    canAttack: bool,
    canTeleport: bool)

  /** The character. Each timer handle is reduced to an "armed" flag. */
  datatype Character = Character(
    state: CharacterState,
    prevState: CharacterState,
    health: real,
    move: Movement,
    slide: Slide,
    fall: Fall,
    status: Status,
    stopRunArmed: bool,
    calls: seq<StubCall>)      // calls into empty members, oldest first

  /** The character as the constructor leaves it. Fields without an
      initialiser are zero; `engineWalkSpeed` is the movement component's
      own default, which the character does not set. */
  function Spawned(engineWalkSpeed: real): (r: Character)
    ensures r.state == Crouch && r.health == 0.0
    ensures !r.status.healing && !r.status.healArmed && !r.stopRunArmed
    // the zero markers the frame update tests as "not recorded"
    ensures r.prevState == Normal
    ensures r.slide == Slide(false, 0.0, 0)
    ensures r.fall == Fall(0, 0, false)
    ensures r.move.maxWalkSpeed == engineWalkSpeed
    ensures r.status.canAttack && r.status.canTeleport
    ensures r.move.jumpZVelocity == WalkJumpZVelocity && r.move.jumpAllowed
    ensures r.calls == []
    ensures Valid(r) <==> engineWalkSpeed <= MaxSpeed
  {
    Character(
      state := Crouch, prevState := Normal, health := 0.0,
      move := Movement(engineWalkSpeed, WalkJumpZVelocity, true),
      slide := Slide(false, 0.0, 0),
      fall := Fall(0, 0, false),
      status := Status(healing := false, healArmed := false,
                       canAttack := true, canTeleport := true),
      stopRunArmed := false,
      calls := [])
  }

  /** The facts every operation keeps: a slide only exists while crouched,
      the speed stays under the slide ceiling, health is never negative. */
  ghost predicate Valid(c: Character)
  {
    && (c.slide.momentum ==> c.state == Crouch)
    && c.move.maxWalkSpeed <= MaxSpeed
    && c.health >= 0.0
  }

  /** The inline timer callbacks of the class: each sets one flag. */

  function SetCanAttackTrue(c: Character): (r: Character)
    ensures r.status.canAttack
    ensures r.(status := r.status.(canAttack := c.status.canAttack)) == c
  {
    c.(status := c.status.(canAttack := true))
  }

  function SetHealingFalse(c: Character): (r: Character)
    ensures !r.status.healing
    ensures r.(status := r.status.(healing := c.status.healing)) == c
  {
    c.(status := c.status.(healing := false))
  }

  function SetCanTeleportTrue(c: Character): (r: Character)
    ensures r.status.canTeleport
    ensures r.(status := r.status.(canTeleport := c.status.canTeleport)) == c
  {
    c.(status := c.status.(canTeleport := true))
  }
}

=== FILE: damage.dfy ===
/** The damage pipeline: CharacterTakeDamage. */
module Damage {
  import opened Tuning
  import opened CharacterModel
  import opened StateControl

  /** The character after the call, and the boolean the call returns. */
  datatype DamageOutcome = DamageOutcome(character: Character, ok: bool)

  /** Damage interrupts a heal: the heal timer is cleared and the healing
      flag dropped. A character that is not healing is left alone, even if
      its heal timer happens to be armed. */
  function CancelHeal(c: Character): (r: Character)
    ensures !r.status.healing
    ensures c.status.healing ==> !r.status.healArmed
    ensures !c.status.healing ==> r == c
    ensures r.(status := c.status) == c
    ensures r.status.(healing := c.status.healing, healArmed := c.status.healArmed) == c.status
  {
    if c.status.healing then SetHealingFalse(c.(status := c.status.(healArmed := false)))
    else c
  }

  /** CharacterTakeDamage. Damage that would bring health to zero or below
      clamps it to exactly zero and requests Dead; anything less is
      subtracted. The call reports success on every path. */
  function TakeDamage(c: Character, damage: real): (r: DamageOutcome)
    ensures r.ok
    ensures r.character.health >= 0.0
    ensures !r.character.status.healing
    ensures r.character.status == CancelHeal(c).status
    // lethal damage: health exactly 0, and the character is dead
    ensures c.health - damage <= 0.0 ==>
      && r.character.health == 0.0
      && r.character.state == Dead
      && r.character.prevState == (if c.state == Dead then c.prevState else c.state)
      && r.character.fall == c.fall
      && r.character.move.maxWalkSpeed == c.move.maxWalkSpeed
      && (c.state != Dead ==>
            && r.character.calls == c.calls + [ChangeSpeed(DeadSpeed)]
            && r.character.move == c.move.(jumpAllowed := false)
            && r.character.slide == c.slide.(momentum := false)
            && !r.character.stopRunArmed)
      && (c.state == Dead ==>
            r.character == CancelHeal(c).(health := 0.0, stopRunArmed := false))
    // non-lethal damage: only health and the heal flags change
    ensures c.health - damage > 0.0 ==>
      r.character == CancelHeal(c).(health := c.health - damage)
  {
    var calm := CancelHeal(c);
    if calm.health - damage <= 0.0 then
      DamageOutcome(ChangeStateDead(calm.(health := 0.0)), true)
    else
      DamageOutcome(calm.(health := calm.health - damage), true)
  }

  /** Two hits in a row leave the character exactly as one hit of their
      combined size would, as long as the second is not a negative amount. */
  lemma DamageAccumulates(c: Character, first: real, second: real)
    requires second >= 0.0
    ensures TakeDamage(TakeDamage(c, first).character, second)
            == TakeDamage(c, first + second)
  {
    var once := TakeDamage(c, first).character;
    if c.health - first <= 0.0 {
      assert once.state == Dead;
    }
  }

  /** Health never rises through damage of a non-negative amount, so a
      character within [0, MaxHealth] stays there. */
  lemma DamageKeepsHealthInRange(c: Character, damage: real)
    requires 0.0 <= c.health
    requires damage >= 0.0
    ensures 0.0 <= TakeDamage(c, damage).character.health <= c.health
    ensures c.health <= MaxHealth ==> TakeDamage(c, damage).character.health <= MaxHealth
  {}

  /** Once dead with no health left, further non-negative damage keeps the
      character dead at zero health. */
  lemma DeadStaysAtZero(c: Character, damage: real)
    requires c.state == Dead && c.health == 0.0
    requires damage >= 0.0
    ensures TakeDamage(c, damage).character.state == Dead
    ensures TakeDamage(c, damage).character.health == 0.0
  {}

  /** Damage keeps the character's invariant. */
  lemma TakeDamageKeepsValid(c: Character, damage: real)
    requires Valid(c)
    ensures Valid(TakeDamage(c, damage).character)
  {}
}

=== FILE: lifecycle.dfy ===
/** The character's life: the setup BeginPlay performs, and any sequence of
    the operations the class exposes (state requests, damage, frames and
    the flag callbacks its timers fire). */
module Lifecycle {
  import opened Tuning
  import opened CharacterModel
  import opened StateControl
  import opened Damage
  import opened Movement

  /** BeginPlay: enter Normal, then fill health up. */
  function BeginPlay(c: Character): (r: Character)
    ensures r.health == MaxHealth
    ensures c.state != Dead ==> r.state == Normal
    ensures Valid(c) ==> !r.slide.momentum
    ensures c.state != Dead && c.state != Normal ==> r.prevState == c.state
    ensures Valid(c) ==> Valid(r)
    // nothing outside the state controller's reach changes
    ensures r.fall == c.fall && r.status == c.status
    ensures r.move.maxWalkSpeed == c.move.maxWalkSpeed && !r.stopRunArmed
    // entering Normal requests the walking speed and the walking jump
    ensures c.state != Dead && c.state != Normal ==>
      && r.calls == c.calls + [ChangeSpeed(WalkSpeed)]
      && r.move.jumpZVelocity == WalkJumpZVelocity
    // a dead character, or one already walking, only has its health filled
    ensures c.state == Dead || c.state == Normal ==>
      r == c.(stopRunArmed := false, health := MaxHealth)
  {
    ChangeStateNormal(c).(health := MaxHealth)
  }

  /** A freshly spawned character starts play walking, having come out of
      its declared Crouch, at full health, with no slide, heal or timer
      running and its attack and teleport ready. */
  lemma BeginPlayFromSpawn(engineWalkSpeed: real)
    requires engineWalkSpeed <= MaxSpeed
    ensures BeginPlay(Spawned(engineWalkSpeed)).state == Normal
    ensures BeginPlay(Spawned(engineWalkSpeed)).prevState == Crouch
    ensures BeginPlay(Spawned(engineWalkSpeed)).health == MaxHealth
    ensures BeginPlay(Spawned(engineWalkSpeed)).calls == [ChangeSpeed(WalkSpeed)]
    ensures BeginPlay(Spawned(engineWalkSpeed)).move.jumpZVelocity == WalkJumpZVelocity
    ensures BeginPlay(Spawned(engineWalkSpeed)).status
            == Status(healing := false, healArmed := false,
                      canAttack := true, canTeleport := true)
    ensures !BeginPlay(Spawned(engineWalkSpeed)).slide.momentum
    ensures Valid(BeginPlay(Spawned(engineWalkSpeed)))
  {}

  /** One thing that can happen to the character. */
  datatype Event =
    | Request(target: CharacterState)
    | Hit(damage: real)
    | Frame(input: FrameInput)
    | AttackCooldownOver
    | HealingFlagCleared
    | TeleportCooldownOver

  function Step(c: Character, e: Event): Character
  {
    match e
    case Request(target) => SetState(c, target)
    case Hit(damage) => TakeDamage(c, damage).character
    case Frame(input) => Tick(c, input)
    case AttackCooldownOver => SetCanAttackTrue(c)
    case HealingFlagCleared => SetHealingFalse(c)
    case TeleportCooldownOver => SetCanTeleportTrue(c)
  }

  /** A sequence of events, oldest first. */
  function Play(c: Character, events: seq<Event>): Character
    decreases |events|
  {
    if |events| == 0 then c else Play(Step(c, events[0]), events[1..])
  }

  /** Every operation keeps the invariant. */
  lemma StepKeepsValid(c: Character, e: Event)
    requires Valid(c)
    ensures Valid(Step(c, e))
  {
    match e
    case Request(target) => SetStateKeepsValid(c, target);
    case Hit(damage) => TakeDamageKeepsValid(c, damage);
    case Frame(input) => TickKeepsValid(c, input);
    case AttackCooldownOver =>
    case HealingFlagCleared =>
    case TeleportCooldownOver =>
  }

  /** A slide starts only when a running character is asked to crouch;
      no other operation can turn it on. */
  lemma SlideStartsOnlyOnRunToCrouch(c: Character, e: Event)
    requires !c.slide.momentum
    ensures Step(c, e).slide.momentum <==> c.state == Run && e == Request(Crouch)
  {
    match e
    case Request(target) => SlideStartsOnlyFromRun(c, target);
    case Hit(damage) =>
    case Frame(input) =>
    case AttackCooldownOver =>
    case HealingFlagCleared =>
    case TeleportCooldownOver =>
  }

  /** Any sequence of operations keeps the invariant. */
  lemma {:induction false} PlayKeepsValid(c: Character, events: seq<Event>)
    requires Valid(c)
    ensures Valid(Play(c, events))
    decreases |events|
  {
    if |events| > 0 {
      StepKeepsValid(c, events[0]);
      PlayKeepsValid(Step(c, events[0]), events[1..]);
    }
  }

  /** Dead is absorbing over any sequence of operations. */
  lemma {:induction false} DeadStaysDead(c: Character, events: seq<Event>)
    requires c.state == Dead
    ensures Play(c, events).state == Dead
    decreases |events|
  {
    if |events| > 0 {
      assert Step(c, events[0]).state == Dead;
      DeadStaysDead(Step(c, events[0]), events[1..]);
    }
  }

  /** Starting play always yields a valid character, so every character
      reachable in play keeps the invariant. */
  lemma ReachableIsValid(engineWalkSpeed: real, events: seq<Event>)
    requires engineWalkSpeed <= MaxSpeed
    ensures Valid(Play(BeginPlay(Spawned(engineWalkSpeed)), events))
  {
    BeginPlayFromSpawn(engineWalkSpeed);
    PlayKeepsValid(BeginPlay(Spawned(engineWalkSpeed)), events);
  }
}

=== FILE: movement.dfy ===
/** The per-frame update: the crouch slide (momentum) and the fall
    bookkeeping. Nothing happens in a frame unless the character is
    crouched. */
module Movement {
  import opened Tuning
  import opened CharacterModel

  function Abs(x: real): (r: real)
    ensures r >= 0.0
    ensures r == x || r == -x
  {
    if x < 0.0 then -x else x
  }

  /** A recorded heading of exactly 0 counts as "none recorded" and is
      replaced by the current yaw before the turn check. */
  function SeedAngle(prevAngle: real, yaw: real): (a: real)
    ensures prevAngle != 0.0 ==> a == prevAngle
    ensures prevAngle == 0.0 ==> a == yaw
  {
    if prevAngle == 0.0 then yaw else prevAngle
  }

  /** The turn check compares absolute headings: the slide ends when they
      differ by more than the turn limit. */
  predicate TurnedTooFar(prevAngle: real, yaw: real)
  {
    Abs(Abs(SeedAngle(prevAngle, yaw)) - Abs(yaw)) > TurnLimit
  }

  /** A heading that has not been recorded never ends a slide. */
  lemma UnrecordedHeadingNeverTurns(yaw: real)
    ensures !TurnedTooFar(0.0, yaw)
  {}

  /** With a heading on record, the turn check fires exactly when the
      magnitudes of the recorded heading and the current yaw are more than
      the turn limit apart; the signs of the headings play no part. */
  lemma TurnCheckComparesMagnitudes(prevAngle: real, yaw: real)
    requires prevAngle != 0.0
    ensures TurnedTooFar(prevAngle, yaw) <==>
      (Abs(prevAngle) > Abs(yaw) + TurnLimit || Abs(yaw) > Abs(prevAngle) + TurnLimit)
    ensures TurnedTooFar(prevAngle, yaw) == TurnedTooFar(-prevAngle, -yaw)
  {}

  /** The speed after the height-driven change of one slide frame: on the
      ground, losing height speeds the character up and gaining height slows
      it down, capped at MaxSpeed; in the air the speed decays. */
  function SlideAccelerate(speed: real, prevHeight: int, input: FrameInput): (s: real)
    ensures speed <= MaxSpeed ==> s <= MaxSpeed
    ensures !input.grounded ==> s == speed - SpeedDecayRate
    ensures input.grounded && prevHeight == input.z ==> s == speed
    ensures input.grounded && prevHeight != input.z ==>
      s <= MaxSpeed && s <= speed + (prevHeight - input.z) as real * HeightGain
    ensures input.grounded && prevHeight != input.z
              && speed + (prevHeight - input.z) as real * HeightGain <= MaxSpeed ==>
      s == speed + (prevHeight - input.z) as real * HeightGain
    ensures input.grounded && prevHeight != input.z
              && speed + (prevHeight - input.z) as real * HeightGain > MaxSpeed ==>
      s == MaxSpeed
    // descending never slows the slide down, climbing never speeds it up
    ensures input.grounded && prevHeight >= input.z && speed <= MaxSpeed ==> s >= speed
    ensures input.grounded && prevHeight <= input.z ==> s <= speed
  {
    if input.grounded then
      if prevHeight != input.z then
        var gained := speed + (prevHeight - input.z) as real * HeightGain;
        if gained > MaxSpeed then MaxSpeed else gained
      else speed
    else speed - SpeedDecayRate
  }

  /** One frame of an active slide that survived the turn check: the
      height-driven change, then the layered decay, and the slide ends
      (snapping to the crouch speed) once one more air-decay step would reach
      the crouch speed. The current heading and height are recorded last. */
  function SlideStep(c: Character, input: FrameInput): (r: Character)
    requires c.slide.momentum
    ensures r.slide.prevAngle == input.yaw && r.slide.prevHeight == input.z
    ensures c.move.maxWalkSpeed <= MaxSpeed ==> r.move.maxWalkSpeed <= MaxSpeed
    ensures !r.slide.momentum ==> r.move.maxWalkSpeed == CrouchSpeed
    ensures r.slide.momentum ==>
      r.move.maxWalkSpeed
        == SlideAccelerate(c.move.maxWalkSpeed, c.slide.prevHeight, input)
           - (if input.grounded then SpeedDecayRateGround else SpeedDecayRate)
    ensures r.slide.momentum <==>
      SlideAccelerate(c.move.maxWalkSpeed, c.slide.prevHeight, input) - SpeedDecayRate
        > CrouchSpeed
    // a surviving slide is never more than one ground-decay step short of the crouch speed
    ensures r.slide.momentum ==>
      r.move.maxWalkSpeed > CrouchSpeed - (SpeedDecayRateGround - SpeedDecayRate)
    ensures r.slide.momentum && !input.grounded ==> r.move.maxWalkSpeed > CrouchSpeed
    ensures r.(move := c.move, slide := c.slide) == c
    ensures r.move.(maxWalkSpeed := c.move.maxWalkSpeed) == c.move
  {
    var accelerated := SlideAccelerate(c.move.maxWalkSpeed, c.slide.prevHeight, input);
    var decayed :=
      if accelerated - SpeedDecayRate <= CrouchSpeed then
        c.(slide := c.slide.(momentum := false), move := c.move.(maxWalkSpeed := CrouchSpeed))
      else
        var decay := if input.grounded then SpeedDecayRateGround else SpeedDecayRate;
        c.(move := c.move.(maxWalkSpeed := accelerated - decay));
    decayed.(slide := decayed.slide.(prevAngle := input.yaw, prevHeight := input.z))
  }

  /** The fall bookkeeping of a crouched frame: while airborne the start
      height is recorded once, the end height follows the character, and the
      jump-damage timer is re-armed. On the ground nothing changes. */
  function FallStep(f: Fall, input: FrameInput): (r: Fall)
    ensures input.grounded ==> r == f
    ensures !input.grounded ==> r.endHeight == input.z && r.damageArmed
    ensures !input.grounded && f.startHeight != 0 ==> r.startHeight == f.startHeight
    ensures !input.grounded && f.startHeight == 0 ==> r.startHeight == input.z
  {
    if input.grounded then f
    else
      var start := if f.startHeight == 0 then input.z else f.startHeight;
      Fall(start, input.z, true)
  }

  /** The per-frame update (Tick). A turn past the limit ends the slide and
      returns before the fall bookkeeping. */
  function Tick(c: Character, input: FrameInput): (r: Character)
    // only the speed, the slide and the fall records can change
    ensures r.(move := c.move, slide := c.slide, fall := c.fall) == c
    ensures r.move.(maxWalkSpeed := c.move.maxWalkSpeed) == c.move
    ensures c.state != Crouch ==> r == c
    // a frame never starts a slide
    ensures r.slide.momentum ==> c.slide.momentum
    ensures c.move.maxWalkSpeed <= MaxSpeed ==> r.move.maxWalkSpeed <= MaxSpeed
    // crouched without a slide: crouch speed and cleared trackers
    ensures c.state == Crouch && !c.slide.momentum ==>
      && r.move.maxWalkSpeed == CrouchSpeed
      && r.slide == Slide(false, 0.0, 0)
      && r.fall == FallStep(c.fall, input)
    // a sharp turn ends the slide and skips the fall bookkeeping
    ensures c.state == Crouch && c.slide.momentum
              && TurnedTooFar(c.slide.prevAngle, input.yaw) ==>
      && !r.slide.momentum
      && r.move.maxWalkSpeed == CrouchSpeed
      && r.fall == c.fall
      && r.slide.prevAngle == c.slide.prevAngle && r.slide.prevHeight == c.slide.prevHeight
    // otherwise the slide step runs, then the fall bookkeeping
    ensures c.state == Crouch && c.slide.momentum
              && !TurnedTooFar(c.slide.prevAngle, input.yaw) ==>
      && r.slide.prevAngle == input.yaw && r.slide.prevHeight == input.z
      && r.fall == FallStep(c.fall, input)
      && r.slide.momentum == SlideStep(c, input).slide.momentum
      && r.move.maxWalkSpeed == SlideStep(c, input).move.maxWalkSpeed
    ensures c.state == Crouch && r.slide.momentum && !input.grounded ==>
      && r.move.maxWalkSpeed == c.move.maxWalkSpeed - 2.0 * SpeedDecayRate
      && r.move.maxWalkSpeed > CrouchSpeed
  {
    if c.state != Crouch then
      c
    else if !c.slide.momentum then
      c.(move := c.move.(maxWalkSpeed := CrouchSpeed),
         slide := Slide(false, 0.0, 0),
         fall := FallStep(c.fall, input))
    else if TurnedTooFar(c.slide.prevAngle, input.yaw) then
      c.(move := c.move.(maxWalkSpeed := CrouchSpeed),
         slide := c.slide.(momentum := false,
                           prevAngle := SeedAngle(c.slide.prevAngle, input.yaw)))
    else
      var slid := SlideStep(c, input);
      slid.(fall := FallStep(c.fall, input))
  }

  /** A frame keeps the character's invariant. */
  lemma TickKeepsValid(c: Character, input: FrameInput)
    requires Valid(c)
    ensures Valid(Tick(c, input))
  {}

  /** A run of frames, oldest first. */
  function Ticks(c: Character, inputs: seq<FrameInput>): Character
    decreases |inputs|
  {
    if |inputs| == 0 then c else Ticks(Tick(c, inputs[0]), inputs[1..])
  }

  predicate AllAirborne(inputs: seq<FrameInput>)
  {
    forall i :: 0 <= i < |inputs| ==> !inputs[i].grounded
  }

  /** Frames never change the state and never start a slide. */
  lemma {:induction false} TicksKeepStateAndNeverStartSlide(c: Character, inputs: seq<FrameInput>)
    ensures Ticks(c, inputs).state == c.state
    ensures Ticks(c, inputs).slide.momentum ==> c.slide.momentum
    decreases |inputs|
  {
    if |inputs| > 0 {
      TicksKeepStateAndNeverStartSlide(Tick(c, inputs[0]), inputs[1..]);
    }
  }

  /** The jump-damage resolution is an empty member, so nothing ever
      clears a recorded start height: once non-zero, it survives any frames. */
  lemma {:induction false} StartHeightSticks(c: Character, inputs: seq<FrameInput>)
    requires c.fall.startHeight != 0
    ensures Ticks(c, inputs).fall.startHeight == c.fall.startHeight
    decreases |inputs|
  {
    if |inputs| > 0 {
      StartHeightSticks(Tick(c, inputs[0]), inputs[1..]);
    }
  }

  /** Every airborne frame of a slide costs exactly two air-decay steps, and
      a slide that is still running is above the crouch speed. */
  lemma {:induction false} AirborneSlideDecays(c: Character, inputs: seq<FrameInput>)
    requires c.state == Crouch
    requires AllAirborne(inputs)
    ensures Ticks(c, inputs).slide.momentum ==>
      Ticks(c, inputs).move.maxWalkSpeed
        == c.move.maxWalkSpeed - 2.0 * SpeedDecayRate * |inputs| as real
    ensures |inputs| > 0 && Ticks(c, inputs).slide.momentum ==>
      Ticks(c, inputs).move.maxWalkSpeed > CrouchSpeed
    decreases |inputs|
  {
    if |inputs| > 0 {
      var next := Tick(c, inputs[0]);
      var rest := inputs[1..];
      assert AllAirborne(rest) by {
        forall i | 0 <= i < |rest| ensures !rest[i].grounded {
          assert rest[i] == inputs[i + 1];
        }
      }
      AirborneSlideDecays(next, rest);
      TicksKeepStateAndNeverStartSlide(next, rest);
      if Ticks(next, rest).slide.momentum {
        assert next.slide.momentum;
        assert !inputs[0].grounded;
      }
    }
  }

  /** The number of airborne frames after which any slide under the ceiling
      has ended: (MaxSpeed - CrouchSpeed) / (2 * SpeedDecayRate), rounded up. */
  const AirborneSlideFrames: nat := 407

  /** A slide that started under the speed ceiling cannot survive
      AirborneSlideFrames airborne frames. */
  lemma AirborneSlideEnds(c: Character, inputs: seq<FrameInput>)
    requires c.state == Crouch && c.move.maxWalkSpeed <= MaxSpeed
    requires AllAirborne(inputs)
    requires |inputs| >= AirborneSlideFrames
    ensures !Ticks(c, inputs).slide.momentum
    ensures Ticks(c, inputs).move.maxWalkSpeed == CrouchSpeed
  {
    AirborneSlideDecays(c, inputs);
    TicksKeepStateAndNeverStartSlide(c, inputs);
    TicksEndedSlideAtCrouchSpeed(c, inputs);
  }

  /** After at least one crouched frame, a slide that is over leaves the
      character at the crouch speed. */
  lemma {:induction false} TicksEndedSlideAtCrouchSpeed(c: Character, inputs: seq<FrameInput>)
    requires c.state == Crouch
    requires |inputs| > 0
    ensures !Ticks(c, inputs).slide.momentum ==> Ticks(c, inputs).move.maxWalkSpeed == CrouchSpeed
    decreases |inputs|
  {
    var next := Tick(c, inputs[0]);
    if |inputs| > 1 {
      TicksEndedSlideAtCrouchSpeed(next, inputs[1..]);
    }
  }
}

=== FILE: scenarios.dfy ===
/** Concrete situations that show how the model behaves, including the
    consequences of the sentinel values the per-frame update relies on. */
module Scenarios {
  import opened Tuning
  import opened CharacterModel
  import opened StateControl
  import opened Damage
  import opened Movement

  /** Full health, a hit of 30 leaves 70 and the state alone; a further hit
      of 70 kills. */
  lemma TwoHitsKill(c: Character)
    requires c.health == 100.0 && c.state == Run
    ensures TakeDamage(c, 30.0).character.health == 70.0
    ensures TakeDamage(c, 30.0).character.state == Run
    ensures TakeDamage(TakeDamage(c, 30.0).character, 70.0).character.health == 0.0
    ensures TakeDamage(TakeDamage(c, 30.0).character, 70.0).character.state == Dead
  {}

  /** A ground slide that drops 10 units gains 27, then loses one
      ground-decay step. */
  lemma DescentSpeedsUp(c: Character)
    requires c.state == Crouch && c.slide == Slide(true, 30.0, 100)
    requires c.move.maxWalkSpeed == 1000.0
    ensures Tick(c, FrameInput(30.0, 90, true)).slide.momentum
    ensures Tick(c, FrameInput(30.0, 90, true)).move.maxWalkSpeed == 1012.0
  {}

  /** The recorded height is cleared on entering Crouch and never seeded
      from the actor, so the first slide frame measures the height change
      from 0: a character sliding on flat ground at height 100 loses 270. */
  lemma FirstSlideFrameMeasuresFromZero(c: Character)
    requires c.state == Run && c.move.maxWalkSpeed == 1400.0
    ensures Tick(SetState(c, Crouch), FrameInput(30.0, 100, true)).slide.momentum
    ensures Tick(SetState(c, Crouch), FrameInput(30.0, 100, true)).move.maxWalkSpeed == 1115.0
  {}

  /** A recorded heading of exactly 0 reads as "none recorded", so a right
      angle turn away from heading 0 does not end the slide, while the same
      turn away from heading 1 does. */
  lemma ZeroHeadingHidesTurn()
    ensures !TurnedTooFar(0.0, 90.0)
    ensures TurnedTooFar(1.0, 90.0)
  {}

  /** The turn check compares absolute headings, so swinging from +30 to
      -30 degrees goes unnoticed. */
  lemma MirroredTurnGoesUnnoticed()
    ensures !TurnedTooFar(30.0, -30.0)
  {}

  /** The end-of-slide test looks one air-decay step ahead, but on the
      ground a ground-decay step is taken, so a running slide can sit below
      the crouch speed for a frame. */
  lemma SlideCanDipBelowCrouchSpeed(c: Character)
    requires c.state == Crouch && c.slide == Slide(true, 30.0, 0)
    requires c.move.maxWalkSpeed == 460.0
    ensures Tick(c, FrameInput(30.0, 0, true)).slide.momentum
    ensures Tick(c, FrameInput(30.0, 0, true)).move.maxWalkSpeed < CrouchSpeed
  {}
}

=== FILE: state_control.dfy ===
/** The state controller: the single entry point that moves the character
    between Normal, Crouch, Run and Dead, and the baseline speed, jump
    impulse and slide flag that each transition sets. */
module StateControl {
  import opened Tuning
  import opened CharacterModel

  /** A request that actually changes state: the character is alive and
      asks for a state it is not in. */
  predicate Effective(c: Character, target: CharacterState)
  {
    c.state != Dead && c.state != target
  }

  /** The fields the state controller never touches. */
  predicate SameOutsideController(c: Character, r: Character)
  {
    && r.health == c.health
    && r.move.maxWalkSpeed == c.move.maxWalkSpeed
    && r.fall == c.fall
    && r.status == c.status
  }

  /** SetCharacterState. The stop-run timer is cleared before anything else,
      so even a refused request clears it. */
  function SetState(c: Character, target: CharacterState): (r: Character)
    ensures !r.stopRunArmed
    ensures SameOutsideController(c, r)
    // a dead character, or a request for the current state, changes nothing else
    ensures !Effective(c, target) ==> r == c.(stopRunArmed := false)
    // an effective request remembers the old state and enters the new one
    ensures Effective(c, target) ==> r.state == target && r.prevState == c.state
    // entering Crouch clears the trackers; only a crouch out of Run starts a slide
    ensures Effective(c, target) && target == Crouch ==>
      && r.slide.prevAngle == 0.0 && r.slide.prevHeight == 0
      && r.move.jumpZVelocity == c.move.jumpZVelocity
      && r.move.jumpAllowed == c.move.jumpAllowed
      && (c.state == Run ==>
            r.slide.momentum && r.calls == c.calls + [ChangeSpeed(CrouchSpeed + RunSpeed)])
      && (c.state != Run ==>
            r.slide.momentum == c.slide.momentum && r.calls == c.calls + [ChangeSpeed(CrouchSpeed)])
    // every other target ends a slide and leaves the trackers alone
    ensures Effective(c, target) && target != Crouch ==>
      r.slide == c.slide.(momentum := false)
    ensures Effective(c, target) && target == Normal ==>
      && r.calls == c.calls + [ChangeSpeed(WalkSpeed)]
      && r.move.jumpZVelocity == WalkJumpZVelocity
      && r.move.jumpAllowed == c.move.jumpAllowed
    // the standing capsule is restored only when standing up out of Crouch
    ensures Effective(c, target) && target == Run ==>
      && r.calls == c.calls + (if c.state == Crouch then [CapsuleChangeNormal] else [])
                            + [ChangeSpeed(RunSpeed)]
      && r.move.jumpZVelocity == RunJumpZVelocity
      && r.move.jumpAllowed == c.move.jumpAllowed
    ensures Effective(c, target) && target == Dead ==>
      && r.calls == c.calls + [ChangeSpeed(DeadSpeed)]
      && !r.move.jumpAllowed && r.move.jumpZVelocity == c.move.jumpZVelocity
  {
    var cleared := c.(stopRunArmed := false);
    if !Effective(c, target) then
      cleared
    else
      var entered := cleared.(prevState := c.state, state := target);
      match target
      case Normal =>
        entered.(calls := c.calls + [ChangeSpeed(WalkSpeed)],
                 move := c.move.(jumpZVelocity := WalkJumpZVelocity),
                 slide := c.slide.(momentum := false))
      case Crouch =>
        var reset := c.slide.(prevAngle := 0.0, prevHeight := 0);
        if c.state == Run then
          entered.(slide := reset.(momentum := true),
                   calls := c.calls + [ChangeSpeed(CrouchSpeed + RunSpeed)])
        else
          entered.(slide := reset, calls := c.calls + [ChangeSpeed(CrouchSpeed)])
      case Run =>
        var standing := if c.state == Crouch then c.calls + [CapsuleChangeNormal] else c.calls;
        entered.(calls := standing + [ChangeSpeed(RunSpeed)],
                 move := c.move.(jumpZVelocity := RunJumpZVelocity),
                 slide := c.slide.(momentum := false))
      case Dead =>
        entered.(calls := c.calls + [ChangeSpeed(DeadSpeed)],
                 move := c.move.(jumpAllowed := false),
                 slide := c.slide.(momentum := false))
  }

  /** The inline wrappers the rest of the class calls. */
  function ChangeStateNormal(c: Character): Character { SetState(c, Normal) }
  function ChangeStateCrouch(c: Character): Character { SetState(c, Crouch) }
  function ChangeStateRun(c: Character): Character { SetState(c, Run) }
  function ChangeStateDead(c: Character): Character { SetState(c, Dead) }

  /** The speed an effective transition into `target` from `from` asks the
      movement component for, stated per state rather than per branch. */
  function Baseline(target: CharacterState, from: CharacterState): real
  {
    match target
    case Normal => WalkSpeed
    case Run => RunSpeed
    case Dead => DeadSpeed
    case Crouch => if from == Run then CrouchSpeed + RunSpeed else CrouchSpeed
  }

  /** An effective transition appends one speed request, for the target's
      baseline, as the last call; only standing up out of Crouch into Run
      makes one more call (the capsule restore), before it. */
  lemma LastRequestIsBaseline(c: Character, target: CharacterState)
    requires Effective(c, target)
    ensures |SetState(c, target).calls|
            == |c.calls| + (if target == Run && c.state == Crouch then 2 else 1)
    ensures SetState(c, target).calls[..|c.calls|] == c.calls
    ensures SetState(c, target).calls[|SetState(c, target).calls| - 1]
            == ChangeSpeed(Baseline(target, c.state))
  {
    var r := SetState(c, target);
    match target
    case Normal =>
    case Crouch =>
    case Dead =>
    case Run =>
      assert r.calls[|r.calls| - 1] == ChangeSpeed(RunSpeed);
  }

  /** Requesting the same state twice is the same as requesting it once. */
  lemma SetStateIdempotent(c: Character, target: CharacterState)
    ensures SetState(SetState(c, target), target) == SetState(c, target)
  {}

  /** Dead is the one state the controller never leaves: from Dead every
      request keeps Dead, and from any other state some request leaves it. */
  lemma OnlyDeadIsAbsorbing(c: Character)
    ensures c.state == Dead ==> forall t :: SetState(c, t).state == Dead
    ensures c.state != Dead ==> exists t :: SetState(c, t).state != c.state
  {
    if c.state != Dead {
      var t := if c.state == Normal then Run else Normal;
      assert SetState(c, t).state == t;
    }
  }

  /** A slide starts through the controller exactly when a running
      character crouches. */
  lemma SlideStartsOnlyFromRun(c: Character, target: CharacterState)
    requires !c.slide.momentum
    ensures SetState(c, target).slide.momentum <==> c.state == Run && target == Crouch
  {}

  /** The controller keeps the character's invariant. */
  lemma SetStateKeepsValid(c: Character, target: CharacterState)
    requires Valid(c)
    ensures Valid(SetState(c, target))
  {}
}

=== FILE: tuning.dfy ===
/** Tuning constants of the character: the constants of the class
    declaration and the literals of TCharacter.cpp.
    Speeds are in engine units per second, angles in degrees, heights in
    engine units; float arithmetic is modelled with `real`. */
module Tuning {

  /** Baseline speed of each standing state. */
  const WalkSpeed: real := 750.0
  const RunSpeed: real := 950.0
  const CrouchSpeed: real := 450.0

  /** Ceiling for the speed a crouch slide can build up. */
  const MaxSpeed: real := 4515.0

  const MaxHealth: real := 100.0

  /** Per-tick decay of a slide in the air, and on the ground. */
  const SpeedDecayRate: real := 5.0
  const SpeedDecayRateGround: real := 15.0

  /** A heading change larger than this ends a slide (TCharacter.cpp:67). */
  const TurnLimit: real := 44.0

  /** Speed gained per unit of height lost while sliding on the ground
      (TCharacter.cpp:82). */
  const HeightGain: real := 2.7

  /** Jump impulse while walking and while running (TCharacter.cpp:29,
      146 and 182). */
  const WalkJumpZVelocity: real := 350.0
  const RunJumpZVelocity: real := 400.0

  /** Speed requested on death (TCharacter.cpp:196). */
  const DeadSpeed: real := 0.0

  /** The speed tiers are strictly ordered, and the Run-to-Crouch kick
      starts under the slide ceiling. */
  lemma SpeedTiers()
    ensures CrouchSpeed < WalkSpeed < RunSpeed < MaxSpeed
    ensures CrouchSpeed + RunSpeed <= MaxSpeed
    ensures 0.0 < SpeedDecayRate < SpeedDecayRateGround
    ensures MaxHealth == 100.0
  {}
}
